=== FILE: README.md ===
# The Rego tester's evaluate-and-verdict pipeline, in Dafny

This project models the core of a command-line test runner for Rego policies.
The runner reads a suite of test cases and runs each one through the OPA evaluator, as `opa eval`.
It recovers the last JSON object from the evaluator's combined output and takes the value of its first expression.
It compares that value with the test's expected value and keeps a tally of run, succeeded and failed tests.
The tally becomes the process exit status.

The model has seven modules:

- `Wrappers` (`wrappers.dfy`): `Option` and `Result`.
- `JsonValues` (`json_values.dfy`): the values `encoding/json` decodes into an `interface{}`, and Go's `==` on two of them.
- `Lines` (`lines.dfy`): `strings.Split(s, "\n")` and `strings.Join(lines, "\n")`, with their round trips.
- `OpaPort` (`opa_port.dfy`): the evaluator port's request, result, errors and answer.
  An answer is either Go's `(result, error)` pair or a panic.
- `BinaryOpaAdapter` (`binary_opa_adapter.dfy`): the argument vector, `extractLastObject`, and the tail of `Evaluate`.
  The process call, JSON encoding and JSON decoding are given as functions (`Collaborators`).
- `RunTestUseCase` (`run_test_use_case.dfy`): the per-test verdict. The port is a function parameter.
- `RegoTest` (`regotest.dfy`): the driver loop, the exit status and the `filter` helper.

The driver is written twice:

- `Drive` is a recursive reference definition over the flattened list of planned tests.
- `RunSuite`, with `CountTests` and `RunEntryPoint`, is the nested loop of `main`, and is proved equal to `Drive`.

Tally, bail and filter properties are proved about `Drive`.

## Model

| member | source | states |
|---|---|---|
| `BinaryOpaAdapter.Args` | internal/infra/adapters/binary_opa_adapter.go:80-87 | the vector is `eval --fail --stdin-input -d <rego> -d <data> data.<entry point>`, eight entries in that order |
| `BinaryOpaAdapter.ArgsInjective` | internal/infra/adapters/binary_opa_adapter.go:80-87 | the vector keeps the policy path, the data path and the entry point: equal vectors come from requests that agree on all three |
| `BinaryOpaAdapter.ScanBack` | internal/infra/adapters/binary_opa_adapter.go:224-242 | a backward scan returns the last index at or before its start whose line is non-empty and begins with the character; no later line in range qualifies; -1 when none does |
| `BinaryOpaAdapter.FindSpan` | internal/infra/adapters/binary_opa_adapter.go:221-245 | "no closing" exactly when no line begins with `}`; "no opening" exactly when a last `}`-line exists but no line at or before it begins with `{`; otherwise the unique span: end is the last `}`-line, start is the nearest `{`-line at or before it, and start < end |
| `BinaryOpaAdapter.ExtractLastObject` | internal/infra/adapters/binary_opa_adapter.go:220-251 | for the newline-split input: both error cases with their exact conditions; success exactly when a span exists; the result is the newline-join of lines start..end inclusive |
| `BinaryOpaAdapter.ExtractedIsObjectSlice` | internal/infra/adapters/binary_opa_adapter.go:247-250 | a successful extraction is a contiguous piece of the input; its first character is `{`; its first line begins with `{` and its last line with `}` |
| `BinaryOpaAdapter.SpanShape` | internal/infra/adapters/binary_opa_adapter.go:247-250 | the joined span sits at a known offset in the joined lines, begins with `{`, and splits back into lines from a `{`-line to a `}`-line |
| `BinaryOpaAdapter.ExtractEmbedded` | internal/infra/adapters/binary_opa_adapter.go:204-251 | take any diagnostic lines, then an object whose first line begins with `{`, whose later lines do not, and whose last line begins with `}`, then lines not beginning with `}`; the object is recovered verbatim |
| `BinaryOpaAdapter.PrettyPrintedOutputExtracted` | internal/infra/adapters/binary_opa_adapter.go:204-251 | for output made of any diagnostic text, a newline, an object with `{` and `}` on lines of their own around any number of body lines none of which starts with `{`, and a final newline, the recovered object is exactly those object lines joined |
| `BinaryOpaAdapter.SingleLineObjectFails` | internal/infra/adapters/binary_opa_adapter.go:221-233 | the one-line object `{"result": []}` gives the "no closing '}'" failure |
| `BinaryOpaAdapter.Navigate` | internal/infra/adapters/binary_opa_adapter.go:112-122 | no results gives `NoResult`; results with an empty first expression list gives `NoExpression`; otherwise the value of the first expression of the first result |
| `BinaryOpaAdapter.Interpret` | internal/infra/adapters/binary_opa_adapter.go:102-127 | an extraction failure panics with its message; a decode failure is the `InvalidJson` error; a decoded response with no results is the `NoResult` error, and one whose first result has no expressions is the `NoExpression` error; otherwise the value of the first expression of the first result, with the whole combined output and no error; every error comes with the zero result (nil value, empty output) |
| `BinaryOpaAdapter.Evaluate` | internal/infra/adapters/binary_opa_adapter.go:80-127 | a serialisation failure and a process failure are errors with the zero result, so no output is attached; it panics exactly when the run succeeds and its output has no recoverable object; after a successful run the answer is the interpretation of that run's output |
| `BinaryOpaAdapter.EvaluateReturnsEmbeddedValue` | internal/infra/adapters/binary_opa_adapter.go:94-127 | when the evaluator prints diagnostics and then the result object, the gateway returns that object's first expression value, with the full output and no error |
| `Lines.Split` | internal/infra/adapters/binary_opa_adapter.go:221 | Go's `strings.Split(s, "\n")`: at least one line, and no line contains a newline |
| `Lines.JoinSplit` | internal/infra/adapters/binary_opa_adapter.go:221-248 | joining the split lines gives back the text |
| `Lines.SplitJoin` | internal/infra/adapters/binary_opa_adapter.go:221-248 | splitting the join of newline-free lines gives back the lines |
| `Lines.JoinAppend` | internal/infra/adapters/binary_opa_adapter.go:248 | the join of a concatenation is the two joins with one newline between them |
| `Lines.JoinSliceOccurs` | internal/infra/adapters/binary_opa_adapter.go:248 | the join of a slice of lines occurs in the join of all lines |
| `JsonValues.InterfaceEquals` | internal/domain/usecases/run_test_use_case.go:71 | Go `==` on interfaces: values of different dynamic kinds are unequal; two slices or two maps panic; otherwise it is true exactly when the values are equal |
| `RunTestUseCase.Request` | internal/domain/usecases/run_test_use_case.go:52-58 | the request carries the policy path, data path, entry point, input and verbose flag unchanged |
| `RunTestUseCase.Execute` | internal/domain/usecases/run_test_use_case.go:47-81 | passes exactly when the port returns no error and a value equal to a non-composite expected value; fails exactly on an error, a kind mismatch or an unequal scalar; a port panic crashes |
| `RunTestUseCase.ExecuteAsksOnce` | internal/domain/usecases/run_test_use_case.go:52-58 | the verdict depends only on the port's answer to the one request |
| `RunTestUseCase.ErrorFails` | internal/domain/usecases/run_test_use_case.go:65-69 | an error fails the test whatever value comes with it |
| `RunTestUseCase.OutputIgnored` | internal/domain/usecases/run_test_use_case.go:60-63 | two answers that differ only in their output give the same verdict |
| `RunTestUseCase.ScalarVerdict` | internal/domain/usecases/run_test_use_case.go:65-80 | with a scalar expected value, the test never crashes and passes exactly when there is no error and the value equals the expected one |
| `RunTestUseCase.NumberIsNotString` | internal/domain/usecases/run_test_use_case.go:71-76 | an actual value of the number 1 against an expected value of the string "1" fails |
| `RunTestUseCase.CompositeNeverPasses` | internal/domain/usecases/run_test_use_case.go:71 | an array or object expected value never passes |
| `RegoTest.CountTests` | cmd/regotest/regotest.go:78-83 | the up-front count is the sum of the entry points' test counts |
| `RegoTest.TotalTestsAppend` | cmd/regotest/regotest.go:78-83 | the count over two groups of entry points is the sum of their counts |
| `RegoTest.Jobs` | cmd/regotest/regotest.go:88-89 | there are as many planned tests as the up-front count; filtering and bail do not enter it |
| `RegoTest.JobsInSuiteOrder` | cmd/regotest/regotest.go:88-98 | test k of entry point i comes after every test of earlier entry points and the first k of its own, and its query is `package + "." + var` |
| `RegoTest.AllSelected` | cmd/regotest/regotest.go:90-92 | with an empty `--only`, no test is skipped |
| `RegoTest.Drive` | cmd/regotest/regotest.go:84-115 | the total never changes; counters never decrease; `run` grows by exactly the new successes plus failures; `run` grows by at most, and on finishing by exactly, the number of selected tests; a bail follows exactly one new failure; a finished bail-mode run has no new failure. Which verdicts the counters count is stated by `FinishedCountsVerdicts` |
| `RegoTest.CountVerdict` | cmd/regotest/regotest.go:90-113 | no more jobs get a given verdict than are selected |
| `RegoTest.VerdictsPartition` | cmd/regotest/regotest.go:90-113 | the Passed, Failed and Crashed counts add up to the number of selected jobs |
| `RegoTest.FinishedCountsVerdicts` | cmd/regotest/regotest.go:104-113 | in a finished run, `succeeded` grows by the number of selected jobs that passed, `failed` by the number that failed, and no selected job crashed |
| `RegoTest.AllPassedFinishes` | cmd/regotest/regotest.go:104-115 | when every selected job passes, the run finishes with no new failure |
| `RegoTest.FailureNeverExitsZero` | cmd/regotest/regotest.go:104-121 | one selected job with the Failed verdict, anywhere in the plan, makes the exit status non-zero |
| `RegoTest.DriveAppend` | cmd/regotest/regotest.go:88-115 | running two test lists in sequence reaches the second only when the first finishes, so after a bail or a crash no later test runs |
| `RegoTest.BailStopsAtFirstFailure` | cmd/regotest/regotest.go:108-112 | under `--bail`, the first failing selected test ends the run with one more failure; the result is the same whatever tests come after it |
| `RegoTest.RunJob` | cmd/regotest/regotest.go:90-113 | one iteration of the inner loop: when the run stops at this test, the stopping run is the reference run; otherwise the reference run goes on from the next test with the returned tally |
| `RegoTest.RunEntryPoint` | cmd/regotest/regotest.go:89-114 | the inner loop, with the query `package.var` and the suite's paths, equals the reference run over that entry point's tests |
| `RegoTest.RunSuite` | cmd/regotest/regotest.go:78-117 | the driver equals the reference run from a zero tally; `run == succeeded + failed` and `run <= total`; a bailed run has exactly one failure; with an empty `--only`, a finished run has `run == total` |
| `RegoTest.ExitStatus` | cmd/regotest/regotest.go:108-121 | status 0 exactly when the run finished with no failure; a finished run with a failure and a bailed run exit 1; an aborted run exits 2, as a Go panic does |
| `RegoTest.SuccessMeansAllPassed` | cmd/regotest/regotest.go:104-121 | for a whole suite: status 0 exactly when the run finished and every executed test succeeded, and exactly when every selected test got the Passed verdict |
| `RegoTest.UnrecoverableOutputAbortsRun` | internal/infra/adapters/binary_opa_adapter.go:102-105 | with the subprocess gateway as the port, output with no recoverable object aborts the whole run at that test; the test is not counted and the exit status is 2 |
| `RegoTest.Keep` | cmd/regotest/regotest.go:129-137 | every kept element satisfies the condition, and there are no more of them than in the input |
| `RegoTest.KeepCounts` | cmd/regotest/regotest.go:129-137 | every occurrence of an element that satisfies the condition is kept, and every other occurrence is dropped |
| `RegoTest.KeepAppend` | cmd/regotest/regotest.go:129-137 | filtering a concatenation concatenates the filterings, so the original order is kept |
| `RegoTest.Filter` | cmd/regotest/regotest.go:129-137 | the loop that appends each satisfying element computes exactly `Keep` |

## Behaviour worth noting

- When the evaluator process fails, `Evaluate` returns the zero result with its error (internal/infra/adapters/binary_opa_adapter.go:97-100).
  The captured output is not attached.
- A one-line response such as `{"result": []}` has no line beginning with `}`.
  `extractLastObject` fails on it, and `Evaluate` panics (internal/infra/adapters/binary_opa_adapter.go:102-105, 231-233).
- A panic ends the whole run rather than failing one test.
  A Go panic exits with status 2, which the model uses for `Aborted`.
- `only != nil` is always true in `main`, because `flag.String` returns a non-nil pointer.
  Only the empty-string test matters.
- A missing path or an unreadable or undecodable suite file makes `main` return, so the process exits with status 0 (cmd/regotest/regotest.go:53-70).

## Left out

- Provisioning the evaluator binary (`os.Stat`, the platform URL switch, `downloadOPA`): network and file-system work. The model assumes the binary is present.
- Running the process (`exec.Command`, `CombinedOutput`): process I/O. It is the `run` collaborator, which returns the combined output or a failure.
- `json.Marshal` and `json.Unmarshal`: foreign library calls. They are the `marshal` and `decode` collaborators.
- Numbers are exact reals, not float64, so decoding's rounding is not modelled.
- Flag parsing, reading and decoding the suite file, and the use of `filter` on the positional arguments: command-line and I/O concerns.
  A missing path, an unreadable suite file or an undecodable one makes `main` return, so the exit status is 0 (cmd/regotest/regotest.go:53-70).
  A bad flag makes `flag.Parse` exit with status 2 (cmd/regotest/regotest.go:48).
- All console text: the per-test lines, the verbose output, the summary line and the ANSI colours.
  The summary printed before a bail exit is not modelled either.
- The dependency-injection registry and the port's Go interface declaration: wiring only. The port is a function parameter.
- `Evaluate`'s `verbose` parameter: the gateway ignores it, and the model passes it through without using it.
- Go strings are bytes, so `lines[i][0]` is a byte; the model works on characters. The two agree here, because only `\n`, `{` and `}` are inspected, and each is a single byte.
- The output of an aborted run: the lines of the tests before the crash and Go's panic message are printed, but the summary line (cmd/regotest/regotest.go:117) is not. The printing is console text, left out as above. The model does keep the tally: `Drive` and `UnrecoverableOutputAbortsRun` give `Run(Aborted, t)`, with `t` the tally from before the crashing test.

=== FILE: binary_opa_adapter.dfy ===
/** The subprocess-backed evaluator gateway: the evaluator's argument vector,
    the recovery of the last JSON object from its combined output, and the
    navigation to the first expression's value. The process call, JSON
    encoding and JSON decoding are given as functions. */
module BinaryOpaAdapter {
  import opened Wrappers
  import opened JsonValues
  import opened Lines
  import opened OpaPort

  // ---------------------------------------------------------------------------
  // Argument vector

  /** The arguments the evaluator is started with: evaluate `data.<entry>`
      against the policy and data files, input on stdin, fail when undefined. */
  function Args(p: EvaluateParams): (args: seq<string>)
    ensures |args| == 8
    ensures args[..4] == ["eval", "--fail", "--stdin-input", "-d"] && args[5] == "-d"
    ensures args[4] == p.regoPath && args[6] == p.dataPath && args[7] == "data." + p.entryPoint
  {
    ["eval", "--fail", "--stdin-input", "-d", p.regoPath, "-d", p.dataPath, "data." + p.entryPoint]
  }

  /** Nothing of the request that the evaluator needs is lost in the argument vector:
      two requests with the same vector name the same files and the same query. */
  lemma ArgsInjective(p: EvaluateParams, q: EvaluateParams)
    requires Args(p) == Args(q)
    ensures p.regoPath == q.regoPath && p.dataPath == q.dataPath && p.entryPoint == q.entryPoint
  {
    var prefix := "data.";
    assert Args(p)[7] == Args(q)[7];
    assert p.entryPoint == (prefix + p.entryPoint)[|prefix|..];
    assert q.entryPoint == (prefix + q.entryPoint)[|prefix|..];
  }

  // ---------------------------------------------------------------------------
  // Recovery of the last object

  /** The line is non-empty and its first character is `c`. */
  predicate StartsWith(line: string, c: char) {
    |line| > 0 && line[0] == c
  }

  /** The index of the last line at or before `from` that starts with `c`,
      or -1 when there is none. */
  function ScanBack(lines: seq<string>, from: int, c: char): (r: int)
    requires -1 <= from < |lines|
    ensures -1 <= r <= from
    ensures r >= 0 ==> StartsWith(lines[r], c)
    ensures forall k :: r < k <= from ==> !StartsWith(lines[k], c)
    decreases from + 1
  {
    if from < 0 then -1
    else if StartsWith(lines[from], c) then from
    else ScanBack(lines, from - 1, c)
  }

  datatype ExtractError = NoClosingBrace | NoOpeningBrace

  /** The panic message for each extraction failure. */
  function Message(e: ExtractError): (message: string) {
    match e
    case NoClosingBrace => "no closing '}' found"
    case NoOpeningBrace => "no opening '{' found"
  }

  /** No line of `lines` starts with `c`. */
  predicate NoLineStartsWith(lines: seq<string>, c: char) {
    forall k :: 0 <= k < |lines| ==> !StartsWith(lines[k], c)
  }

  /** `end` is the last line starting with `}`. */
  predicate IsLastClose(lines: seq<string>, end: int) {
    0 <= end < |lines| && StartsWith(lines[end], '}') &&
    forall k :: end < k < |lines| ==> !StartsWith(lines[k], '}')
  }

  /** A line starts with `}`, but no line at or before the last such line starts with `{`. */
  ghost predicate NoOpeningBeforeClose(lines: seq<string>) {
    exists end :: IsLastClose(lines, end) && forall k :: 0 <= k <= end ==> !StartsWith(lines[k], '{')
  }

  /** `start` is the nearest line at or before `end` starting with `{`,
      and `end` is the last line starting with `}`. */
  predicate IsObjectSpan(lines: seq<string>, start: int, end: int) {
    IsLastClose(lines, end) && 0 <= start <= end &&
    StartsWith(lines[start], '{') &&
    forall k :: start < k <= end ==> !StartsWith(lines[k], '{')
  }

  /** The lines hold an object span. */
  ghost predicate HasObjectSpan(lines: seq<string>) {
    exists start, end :: IsObjectSpan(lines, start, end)
  }

  /** Where the last object lies in `lines`: the last line starting with `}`
      and the nearest line at or before it starting with `{`. */
  function FindSpan(lines: seq<string>): (r: Result<(int, int), ExtractError>)
    ensures r == Failure(NoClosingBrace) <==> NoLineStartsWith(lines, '}')
    ensures r == Failure(NoOpeningBrace) <==> NoOpeningBeforeClose(lines)
    ensures r.Success? <==> HasObjectSpan(lines)
    ensures r.Success? ==> IsObjectSpan(lines, r.value.0, r.value.1)
    ensures forall start, end :: IsObjectSpan(lines, start, end) ==> start < end && r == Success((start, end))
  {
    var end := ScanBack(lines, |lines| - 1, '}');
    if end < 0 then
      ClosingMissing(lines);
      Failure(NoClosingBrace)
    else
      var start := ScanBack(lines, end, '{');
      if start < 0 then
        OpeningMissing(lines, end);
        Failure(NoOpeningBrace)
      else
        SpanFound(lines, start, end);
        Success((start, end))
  }

  /** Without a `}`-line there is neither a span nor a misplaced opening. */
  lemma ClosingMissing(lines: seq<string>)
    requires NoLineStartsWith(lines, '}')
    ensures !NoOpeningBeforeClose(lines) && !HasObjectSpan(lines)
  {
    forall e | 0 <= e < |lines| ensures !IsLastClose(lines, e) {
      assert !StartsWith(lines[e], '}');
    }
  }

  /** When no line up to the last `}`-line starts with `{`, there is no span. */
  lemma OpeningMissing(lines: seq<string>, end: int)
    requires IsLastClose(lines, end)
    requires forall k :: 0 <= k <= end ==> !StartsWith(lines[k], '{')
    ensures !NoLineStartsWith(lines, '}')
    ensures NoOpeningBeforeClose(lines) && !HasObjectSpan(lines)
  {
    assert StartsWith(lines[end], '}');
    forall s', e' | IsObjectSpan(lines, s', e')
      ensures false
    {
      LastCloseUnique(lines, end, e');
    }
  }

  /** A span, once found, is the only one, and rules out both failures. */
  lemma SpanFound(lines: seq<string>, start: int, end: int)
    requires IsObjectSpan(lines, start, end)
    ensures !NoLineStartsWith(lines, '}') && !NoOpeningBeforeClose(lines) && HasObjectSpan(lines)
    ensures forall s', e' :: IsObjectSpan(lines, s', e') ==> start < end && s' == start && e' == end
  {
    assert StartsWith(lines[end], '}');
    forall e | IsLastClose(lines, e) ensures e == end && StartsWith(lines[start], '{') {
      LastCloseUnique(lines, end, e);
    }
    SpanUnique(lines, start, end);
  }

  lemma LastCloseUnique(lines: seq<string>, e1: int, e2: int)
    requires IsLastClose(lines, e1) && IsLastClose(lines, e2)
    ensures e1 == e2
  {
  }

  /** The span is determined by the lines: there is at most one. */
  lemma SpanUnique(lines: seq<string>, start: int, end: int)
    requires IsObjectSpan(lines, start, end)
    ensures start < end
    ensures forall s', e' :: IsObjectSpan(lines, s', e') ==> s' == start && e' == end
  {
    forall s', e' | IsObjectSpan(lines, s', e')
      ensures s' == start && e' == end
    {
      LastCloseUnique(lines, end, e');
    }
  }

  /** The text from the nearest `{`-line up to the last `}`-line, inclusive. */
  function ExtractLastObject(s: string): (r: Result<string, ExtractError>)
    ensures r == Failure(NoClosingBrace) <==> NoLineStartsWith(Split(s), '}')
    ensures r == Failure(NoOpeningBrace) <==> NoOpeningBeforeClose(Split(s))
    ensures r.Success? <==> HasObjectSpan(Split(s))
    ensures forall start, end :: IsObjectSpan(Split(s), start, end) ==>
      start < end && r == Success(Join(Split(s)[start..end + 1]))
  {
    var lines := Split(s);
    var span := FindSpan(lines);
    if span == Failure(NoClosingBrace) then
      Failure(NoClosingBrace)
    else if span == Failure(NoOpeningBrace) then
      Failure(NoOpeningBrace)
    else
      Success(Join(lines[span.value.0..span.value.1 + 1]))
  }

  /** Text that begins with `{`, whose first line starts with `{` and whose
      last line starts with `}`. */
  predicate LooksLikeObject(raw: string) {
    |raw| > 0 && raw[0] == '{' &&
    StartsWith(Split(raw)[0], '{') && StartsWith(Split(raw)[|Split(raw)| - 1], '}')
  }

  /** A successful extraction is a piece of the input whose first line starts
      with `{`, whose last line starts with `}`, and whose lines are exactly
      the input's lines from the opening to the closing one. */
  lemma ExtractedIsObjectSlice(s: string)
    requires ExtractLastObject(s).Success?
    ensures var raw := ExtractLastObject(s).value;
      (exists i :: OccursAt(raw, s, i)) &&
      LooksLikeObject(raw)
  {
    var lines := Split(s);
    var start, end :| IsObjectSpan(lines, start, end);
    var raw := Join(lines[start..end + 1]);
    assert ExtractLastObject(s).value == raw;
    JoinSplit(s);
    SpanShape(lines, start, end);
    assert OccursAt(raw, s, |JoinHead(lines, start)|);
  }

  /** The joined span occurs in the joined lines and keeps its boundary lines. */
  lemma {:induction false} SpanShape(lines: seq<string>, start: int, end: int)
    requires NoNewLines(lines) && IsObjectSpan(lines, start, end)
    ensures var raw := Join(lines[start..end + 1]);
      OccursAt(raw, Join(lines), |JoinHead(lines, start)|) &&
      LooksLikeObject(raw)
  {
    var span := lines[start..end + 1];
    JoinSliceOccurs(lines, start, end + 1);
    assert NoNewLines(span) by {
      forall k | 0 <= k < |span| ensures NewLine !in span[k] {
        assert span[k] == lines[start + k];
      }
    }
    assert span[0] == lines[start] && span[|span| - 1] == lines[end];
    SpanBoundaries(span);
  }

  /** Newline-free lines from a `{`-line to a `}`-line, once joined, start
      with `{` and split back into the same boundary lines. */
  lemma SpanBoundaries(span: seq<string>)
    requires |span| >= 1 && NoNewLines(span)
    requires StartsWith(span[0], '{') && StartsWith(span[|span| - 1], '}')
    ensures var raw := Join(span);
      |raw| > 0 && raw[0] == '{' &&
      StartsWith(Split(raw)[0], '{') && StartsWith(Split(raw)[|Split(raw)| - 1], '}')
  {
    JoinedLines(span);
  }

  /** Joined newline-free lines split back into themselves and begin with
      the first line's first character. */
  lemma JoinedLines(span: seq<string>)
    requires |span| >= 1 && NoNewLines(span) && |span[0]| > 0
    ensures Split(Join(span)) == span
    ensures |Join(span)| > 0 && Join(span)[0] == span[0][0]
  {
    SplitJoin(span);
    if |span| > 1 {
      assert Join(span) == span[0] + [NewLine] + Join(span[1..]);
    }
  }

  /** Whatever diagnostics come before it, an object whose first line starts
      with `{`, whose later lines do not, and whose last line starts with `}`,
      followed only by lines that do not start with `}`, is recovered verbatim. */
  lemma {:induction false} ExtractEmbedded(before: seq<string>, obj: seq<string>, after: seq<string>)
    requires NoNewLines(before + obj + after)
    requires |obj| >= 2
    requires StartsWith(obj[0], '{') && StartsWith(obj[|obj| - 1], '}')
    requires forall k :: 0 < k < |obj| ==> !StartsWith(obj[k], '{')
    requires forall k :: 0 <= k < |after| ==> !StartsWith(after[k], '}')
    ensures ExtractLastObject(Join(before + obj + after)) == Success(Join(obj))
  {
    var lines := before + obj + after;
    SplitJoin(lines);
    var start := |before|;
    var end := |before| + |obj| - 1;
    assert lines[start..end + 1] == obj;
    forall k | end < k < |lines|
      ensures !StartsWith(lines[k], '}')
    {
      assert lines[k] == after[k - end - 1];
    }
    forall k | start < k <= end
      ensures !StartsWith(lines[k], '{')
    {
      assert lines[k] == obj[k - start];
    }
    assert IsObjectSpan(lines, start, end);
  }

  /** A one-line object is not recovered: its line starts with `{`, so no
      line starts with `}`. */
  lemma SingleLineObjectFails()
    ensures ExtractLastObject("{\"result\": []}") == Failure(NoClosingBrace)
  {
    SplitOneLine("{\"result\": []}");
  }

  // ---------------------------------------------------------------------------
  // Decoded response and its navigation

  datatype OpaExpression = OpaExpression(value: Json, text: string, location: string)
  datatype OpaResult = OpaResult(expressions: seq<OpaExpression>)
  datatype OpaResponse = OpaResponse(results: seq<OpaResult>)

  /** The value of the first expression of the first result, or why there is none. */
  function Navigate(response: OpaResponse): (r: Result<Json, PortError>)
    ensures r == Failure(NoResult) <==> |response.results| == 0
    ensures r == Failure(NoExpression) <==>
      |response.results| > 0 && |response.results[0].expressions| == 0
    ensures r.Success? <==>
      |response.results| > 0 && |response.results[0].expressions| > 0
    ensures r.Success? ==> r.value == response.results[0].expressions[0].value
  {
    if |response.results| == 0 then Failure(NoResult)
    else if |response.results[0].expressions| == 0 then Failure(NoExpression)
    else Success(response.results[0].expressions[0].value)
  }

  // ---------------------------------------------------------------------------
  // The gateway

  /** The gateway's collaborators, given rather than modelled: serialising the
      raw input, running the evaluator with an argument vector and a standard
      input (None when the process fails, else its combined output), and
      decoding a JSON response (None when the text is not valid JSON). */
  datatype Collaborators = Collaborators(
    marshal: string -> Option<string>,
    run: (seq<string>, string) -> Option<string>,
    decode: string -> Option<OpaResponse>)

  /** What the gateway makes of the evaluator's combined output: an extraction
      failure panics, everything else is returned as Go's (result, error) pair. */
  function Interpret(decode: string -> Option<OpaResponse>, out: string): (a: Answer)
    ensures a.Panicked? <==> ExtractLastObject(out).Failure?
    ensures a.Panicked? ==> a.message == Message(ExtractLastObject(out).error)
    ensures a.Returned? && a.err.Some? ==> a.result == ZeroResult
    ensures a.Returned? && a.err.None? ==> a.result.output == out
    ensures a == Returned(ZeroResult, Some(InvalidJson)) <==>
      ExtractLastObject(out).Success? && decode(ExtractLastObject(out).value) == None
    ensures ExtractLastObject(out).Success? && decode(ExtractLastObject(out).value).Some? ==>
      var response := decode(ExtractLastObject(out).value).value;
      (|response.results| == 0 ==> a == Returned(ZeroResult, Some(NoResult))) &&
      (|response.results| > 0 && |response.results[0].expressions| == 0 ==>
         a == Returned(ZeroResult, Some(NoExpression))) &&
      (|response.results| > 0 && |response.results[0].expressions| > 0 ==>
         a == Returned(EvaluateResult(response.results[0].expressions[0].value, out), None))
  {
    match ExtractLastObject(out)
    case Failure(e) => Panicked(Message(e))
    case Success(raw) =>
      match decode(raw)
      case None => Returned(ZeroResult, Some(InvalidJson))
      case Some(response) =>
        match Navigate(response)
        case Failure(e) => Returned(ZeroResult, Some(e))
        case Success(v) => Returned(EvaluateResult(v, out), None)
  }

  /** One evaluation: serialise the input, run the evaluator, interpret its output. */
  function Evaluate(c: Collaborators, p: EvaluateParams): (a: Answer)
    ensures c.marshal(p.input) == None ==> a == Returned(ZeroResult, Some(MarshalFailed))
    ensures c.marshal(p.input).Some? && c.run(Args(p), c.marshal(p.input).value) == None ==>
      a == Returned(ZeroResult, Some(ProcessFailed))
    ensures a.Returned? && a.err.Some? ==> a.result == ZeroResult
    ensures a.Panicked? <==> (
      c.marshal(p.input).Some? &&
      var out := c.run(Args(p), c.marshal(p.input).value);
      out.Some? && ExtractLastObject(out.value).Failure?)
    ensures c.marshal(p.input).Some? && c.run(Args(p), c.marshal(p.input).value).Some? ==>
      a == Interpret(c.decode, c.run(Args(p), c.marshal(p.input).value).value)
  {
    match c.marshal(p.input)
    case None => Returned(ZeroResult, Some(MarshalFailed))
    case Some(stdin) =>
      match c.run(Args(p), stdin)
      case None => Returned(ZeroResult, Some(ProcessFailed))
      case Some(out) => Interpret(c.decode, out)
  }

  /** End to end: when the evaluator's output is diagnostics, then an object
      spread over lines as the evaluator prints it, then lines that do not
      start with `}`, the gateway returns the first expression's value of that
      object together with the whole output. */
  lemma EvaluateReturnsEmbeddedValue(c: Collaborators, p: EvaluateParams,
                                     before: seq<string>, obj: seq<string>, after: seq<string>,
                                     response: OpaResponse)
    requires c.marshal(p.input).Some?
    requires c.run(Args(p), c.marshal(p.input).value) == Some(Join(before + obj + after))
    requires NoNewLines(before + obj + after) && |obj| >= 2
    requires StartsWith(obj[0], '{') && StartsWith(obj[|obj| - 1], '}')
    requires forall k :: 0 < k < |obj| ==> !StartsWith(obj[k], '{')
    requires forall k :: 0 <= k < |after| ==> !StartsWith(after[k], '}')
    requires c.decode(Join(obj)) == Some(response)
    requires |response.results| > 0 && |response.results[0].expressions| > 0
    ensures Evaluate(c, p) ==
      Returned(EvaluateResult(response.results[0].expressions[0].value, Join(before + obj + after)), None)
  {
    ExtractEmbedded(before, obj, after);
  }

  /** The shape the evaluator prints: any diagnostic text and a newline, then
      the result object with `{` and `}` on lines of their own around body
      lines that do not start with `{` (nested lines are indented), then a
      final newline. The object is recovered verbatim. */
  lemma {:induction false} PrettyPrintedOutputExtracted(diag: string, body: seq<string>)
    requires NoNewLines(body)
    requires forall k :: 0 <= k < |body| ==> !StartsWith(body[k], '{')
    ensures var obj := Join(["{"] + body + ["}"]);
      ExtractLastObject(diag + "\n" + obj + "\n") == Success(obj)
  {
    var before := Split(diag);
    var obj := ["{"] + body + ["}"];
    var after := [""];
    var lines := before + obj + after;
    JoinSplit(diag);
    assert Join(lines) == diag + "\n" + Join(obj) + "\n" by {
      JoinAppend(before, obj + after);
      JoinAppend(obj, after);
      assert lines == before + (obj + after);
      assert Join(after) == "";
    }
    forall k | 0 < k < |obj|
      ensures !StartsWith(obj[k], '{')
    {
      if k < |obj| - 1 {
        assert obj[k] == body[k - 1];
      }
    }
    assert NoNewLines(lines) by {
      forall k | 0 <= k < |lines| ensures NewLine !in lines[k] {
        if k < |before| {
          assert lines[k] == before[k];
        } else if k == |before| || k >= |before| + |obj| - 1 {
          assert lines[k] == "{" || lines[k] == "}" || lines[k] == "";
        } else {
          assert lines[k] == body[k - |before| - 1];
        }
      }
    }
    ExtractEmbedded(before, obj, after);
  }
}

=== FILE: json_values.dfy ===
/** The values `encoding/json` produces when it decodes into an `interface{}`,
    and Go's `==` on two such interface values. */
module JsonValues {
  import opened Wrappers

  /** A decoded JSON document. Go holds numbers as float64; they are modelled
      as exact reals here. */
  datatype Json =
    | Null
    | Bool(b: bool)
    | Number(n: real)
    | String(s: string)
    | Array(items: seq<Json>)
    | Object(fields: map<string, Json>)

  /** The dynamic type an `interface{}` holds after decoding: `nil`, bool,
      float64, string, []interface{} or map[string]interface{}. */
  datatype Kind = NilKind | BoolKind | NumberKind | StringKind | ArrayKind | ObjectKind

  function KindOf(j: Json): (k: Kind) {
    match j
    case Null => NilKind
    case Bool(_) => BoolKind
    case Number(_) => NumberKind
    case String(_) => StringKind
    case Array(_) => ArrayKind
    case Object(_) => ObjectKind
  }

  /** Slices and maps are not comparable types in Go. */
  predicate IsComposite(j: Json) {
    j.Array? || j.Object?
  }

  /** Go's `a == b` on two interface values: different dynamic types compare
      unequal; identical dynamic types that are not comparable make the
      runtime panic (None); otherwise the dynamic values are compared. */
  function InterfaceEquals(a: Json, b: Json): (r: Option<bool>)
    ensures r == None <==> KindOf(a) == KindOf(b) && IsComposite(a)
    ensures r == Some(true) ==> a == b && !IsComposite(a)
    ensures !IsComposite(a) || !IsComposite(b) ==> r == Some(a == b)
  {
    if KindOf(a) != KindOf(b) then Some(false)
    else if IsComposite(a) then None
    else Some(a == b)
  }
}

=== FILE: lines.dfy ===
/** Line splitting and joining on the newline character, with the semantics
    of Go's `strings.Split(s, "\n")` and `strings.Join(lines, "\n")`. */
module Lines {

  const NewLine: char := '\n'

  /** `n` newlines give `n + 1` pieces; the empty text gives one empty line. */
  function Split(s: string): (lines: seq<string>)
    ensures |lines| >= 1
    ensures forall k :: 0 <= k < |lines| ==> NewLine !in lines[k]
  {
    if s == [] then [[]]
    else
      var rest := Split(s[1..]);
      assert s == [s[0]] + s[1..];
      if s[0] == NewLine then [[]] + rest
      else [[s[0]] + rest[0]] + rest[1..]
  }

  /** The lines put back together, one newline between neighbours. */
  function Join(lines: seq<string>): (text: string)
  {
    if |lines| == 0 then []
    else if |lines| == 1 then lines[0]
    else lines[0] + [NewLine] + Join(lines[1..])
  }

  /** No line of `lines` contains a newline. */
  predicate NoNewLines(lines: seq<string>) {
    forall k :: 0 <= k < |lines| ==> NewLine !in lines[k]
  }

  /** `t` occurs in `s` at position `i`. */
  predicate OccursAt(t: string, s: string, i: int) {
    0 <= i && i + |t| <= |s| && s[i..i + |t|] == t
  }

  /** Splitting and re-joining gives back the text. */
  lemma {:induction false} JoinSplit(s: string)
    ensures Join(Split(s)) == s
    decreases |s|
  {
    if s != [] {
      var rest := Split(s[1..]);
      JoinSplit(s[1..]);
      var lines := Split(s);
      if s[0] == NewLine {
        assert lines == [[]] + rest;
        assert lines[1..] == rest;
        assert Join(lines) == [] + [NewLine] + Join(rest);
      } else if |rest| == 1 {
        assert lines == [[s[0]] + rest[0]];
        assert Join(lines) == [s[0]] + s[1..];
      } else {
        assert lines == [[s[0]] + rest[0]] + rest[1..];
        assert lines[1..] == rest[1..];
        assert Join(lines) == [s[0]] + rest[0] + [NewLine] + Join(rest[1..]);
        assert Join(rest) == rest[0] + [NewLine] + Join(rest[1..]);
      }
      assert [s[0]] + s[1..] == s;
    }
  }

  /** A text without newlines is one line. */
  lemma {:induction false} SplitOneLine(x: string)
    requires NewLine !in x
    ensures Split(x) == [x]
    decreases |x|
  {
    if x != [] {
      assert NewLine !in x[1..] by { assert forall c :: c in x[1..] ==> c in x; }
      SplitOneLine(x[1..]);
      assert [x[0]] + x[1..] == x;
    }
  }

  /** A newline-free first line is split off intact. */
  lemma {:induction false} SplitFirstLine(x: string, s: string)
    requires NewLine !in x
    ensures Split(x + [NewLine] + s) == [x] + Split(s)
    decreases |x|
  {
    if x == [] {
      assert x + [NewLine] + s == [NewLine] + s;
      assert ([NewLine] + s)[1..] == s;
    } else {
      var t := x + [NewLine] + s;
      assert NewLine !in x[1..] by { assert forall c :: c in x[1..] ==> c in x; }
      assert t[1..] == x[1..] + [NewLine] + s;
      SplitFirstLine(x[1..], s);
      assert t[0] == x[0] && [x[0]] + x[1..] == x;
    }
  }

  /** Joining newline-free lines and splitting again gives back the lines. */
  lemma {:induction false} SplitJoin(lines: seq<string>)
    requires |lines| >= 1 && NoNewLines(lines)
    ensures Split(Join(lines)) == lines
    decreases |lines|
  {
    if |lines| == 1 {
      SplitOneLine(lines[0]);
    } else {
      SplitJoin(lines[1..]);
      SplitFirstLine(lines[0], Join(lines[1..]));
    }
  }

  /** Joining distributes over concatenation of non-empty line lists. */
  lemma {:induction false} JoinAppend(a: seq<string>, b: seq<string>)
    requires |a| >= 1 && |b| >= 1
    ensures Join(a + b) == Join(a) + [NewLine] + Join(b)
    decreases |a|
  {
    if |a| == 1 {
      assert (a + b)[1..] == b;
    } else {
      assert (a + b)[1..] == a[1..] + b;
      JoinAppend(a[1..], b);
    }
  }

  /** A join of consecutive lines is a piece of the join of all lines. */
  lemma {:induction false} JoinSliceOccurs(lines: seq<string>, a: int, b: int)
    requires 0 <= a < b <= |lines|
    ensures OccursAt(Join(lines[a..b]), Join(lines), |JoinHead(lines, a)|)
  {
    var head := JoinHead(lines, a);
    var tail := JoinTail(lines, a, b);
    var mid := Join(lines[a..b]);
    OccursInMiddle(head, mid, tail);
    assert Join(lines) == head + (mid + tail);
    assert head + (mid + tail) == head + mid + tail;
  }

  lemma OccursInMiddle(head: string, mid: string, tail: string)
    ensures OccursAt(mid, head + mid + tail, |head|)
  {
    assert (head + mid + tail)[|head|..|head| + |mid|] == mid;
  }

  /** The text that precedes the join of `lines[a..]` inside the join of `lines`. */
  function JoinHead(lines: seq<string>, a: int): (head: string)
    requires 0 <= a < |lines|
    ensures Join(lines) == head + Join(lines[a..])
  {
    if a > 0 then
      JoinAppend(lines[..a], lines[a..]);
      assert lines[..a] + lines[a..] == lines;
      Join(lines[..a]) + [NewLine]
    else
      assert lines[a..] == lines;
      []
  }

  /** The text that follows the join of `lines[a..b]` inside the join of `lines[a..]`. */
  function JoinTail(lines: seq<string>, a: int, b: int): (tail: string)
    requires 0 <= a < b <= |lines|
    ensures Join(lines[a..]) == Join(lines[a..b]) + tail
  {
    var mid := lines[a..b];
    assert lines[a..] == mid + lines[b..];
    if b < |lines| then
      JoinAppend(mid, lines[b..]);
      [NewLine] + Join(lines[b..])
    else
      assert lines[a..] == mid;
      []
  }
}

=== FILE: opa_port.dfy ===
/** The evaluator port: what the use case hands to the evaluator and what it
    gets back. */
module OpaPort {
  import opened Wrappers
  import opened JsonValues

  /** One evaluation request. `input` is the test's raw JSON input text. */
  datatype EvaluateParams = EvaluateParams(
    regoPath: string,
    dataPath: string,
    entryPoint: string,
    input: string,
    verbose: bool)

  /** The evaluated value and the evaluator's full combined output. */
  datatype EvaluateResult = EvaluateResult(value: Json, output: string)

  /** The Go zero value of the result, returned beside every error. */
  const ZeroResult: EvaluateResult := EvaluateResult(Null, "")

  /** The errors the evaluator gateway returns (as opposed to panics). */
  datatype PortError =
    | MarshalFailed   // the input could not be serialised
    | ProcessFailed   // the evaluator process failed; its output is dropped
    | InvalidJson     // the extracted object did not decode
    | NoResult        // the decoded response has no result
    | NoExpression    // the first result has no expression

  /** What one call of the port does: it returns Go's (result, error) pair,
      or it panics and takes the whole process down. */
  datatype Answer =
    | Returned(result: EvaluateResult, err: Option<PortError>)
    | Panicked(message: string)
}

=== FILE: regotest.dfy ===
/** The command-line driver: count the planned tests, run the selected tests
    in suite order, keep the tally, stop at the first failure when asked, and
    map the outcome to an exit status. */
module RegoTest {
  import opened Wrappers
  import opened JsonValues
  import opened OpaPort
  import opened RunTestUseCase
  import BinaryOpaAdapter

  // ---------------------------------------------------------------------------
  // Test suite

  datatype Test = Test(name: string, input: string, expected: Json)
  datatype EntryPoint = EntryPoint(variable: string, tests: seq<Test>)
  datatype Source = Source(rego: string, data: string, packageName: string)
  datatype TestSuite = TestSuite(source: Source, entryPoints: seq<EntryPoint>)

  /** The command-line flags; `only` is "" when the flag is not given. */
  datatype Options = Options(verbose: bool, bail: bool, only: string)

  /** Planned, run, succeeded and failed tests. */
  datatype Tally = Tally(total: nat, run: nat, succeeded: nat, failed: nat)

  /** A run ends after the last test, at the first failure under `--bail`,
      or when a test takes the process down. */
  datatype State = Finished | BailedOut | Aborted
  datatype Run = Run(state: State, tally: Tally)

  /** The number of tests over all entry points. */
  function TotalTests(eps: seq<EntryPoint>): (n: nat) {
    if |eps| == 0 then 0 else |eps[0].tests| + TotalTests(eps[1..])
  }

  lemma {:induction false} TotalTestsAppend(a: seq<EntryPoint>, b: seq<EntryPoint>)
    ensures TotalTests(a + b) == TotalTests(a) + TotalTests(b)
    decreases |a|
  {
    if |a| > 0 {
      assert (a + b)[0] == a[0] && (a + b)[1..] == a[1..] + b;
      TotalTestsAppend(a[1..], b);
    } else {
      assert a + b == b;
    }
  }

  // ---------------------------------------------------------------------------
  // The planned tests, in suite order

  /** A test together with the query of its entry point. */
  datatype Job = Job(query: string, test: Test)

  function EntryJobs(packageName: string, ep: EntryPoint): (jobs: seq<Job>) {
    seq(|ep.tests|, k requires 0 <= k < |ep.tests| => Job(packageName + "." + ep.variable, ep.tests[k]))
  }

  /** Every test of every entry point, entry point by entry point. */
  function Jobs(packageName: string, eps: seq<EntryPoint>): (jobs: seq<Job>)
    ensures |jobs| == TotalTests(eps)
  {
    if |eps| == 0 then [] else EntryJobs(packageName, eps[0]) + Jobs(packageName, eps[1..])
  }

  /** Test `k` of entry point `i` comes after all tests of the earlier entry
      points and the first `k` tests of its own, and is queried as
      `package.variable` of its entry point. */
  lemma {:induction false} JobsInSuiteOrder(packageName: string, eps: seq<EntryPoint>, i: int, k: int)
    requires 0 <= i < |eps| && 0 <= k < |eps[i].tests|
    ensures TotalTests(eps[..i]) + k < |Jobs(packageName, eps)|
    ensures Jobs(packageName, eps)[TotalTests(eps[..i]) + k] ==
      Job(packageName + "." + eps[i].variable, eps[i].tests[k])
    decreases i
  {
    var jobs := Jobs(packageName, eps);
    var first := EntryJobs(packageName, eps[0]);
    assert jobs == first + Jobs(packageName, eps[1..]);
    if i == 0 {
      assert eps[..0] == [];
    } else {
      JobsInSuiteOrder(packageName, eps[1..], i - 1, k);
      assert eps[1..][..i - 1] == eps[1..i] && eps[1..][i - 1] == eps[i];
      assert eps[..i] == [eps[0]] + eps[1..i];
      TotalTestsAppend([eps[0]], eps[1..i]);
      assert TotalTests([eps[0]]) == |eps[0].tests| by { assert [eps[0]][1..] == []; }
    }
  }

  /** A test is run unless a non-empty `--only` names another test. */
  predicate Selected(only: string, name: string) {
    only == "" || name == only
  }

  /** The number of jobs that `--only` lets through. */
  function CountSelected(jobs: seq<Job>, only: string): (n: nat)
    ensures n <= |jobs|
  {
    if |jobs| == 0 then 0
    else (if Selected(only, jobs[0].test.name) then 1 else 0) + CountSelected(jobs[1..], only)
  }

  /** Without `--only`, every job is selected. */
  lemma {:induction false} AllSelected(jobs: seq<Job>)
    ensures CountSelected(jobs, "") == |jobs|
    decreases |jobs|
  {
    if |jobs| > 0 {
      AllSelected(jobs[1..]);
    }
  }

  /** What the driver passes to the use case for one job. */
  function Params(src: Source, opts: Options, job: Job): (p: ExecuteParams) {
    ExecuteParams(job.test.name, src.rego, src.data, job.query, job.test.input, job.test.expected, opts.verbose)
  }

  // ---------------------------------------------------------------------------
  // The run, as a reference definition over the planned jobs

  /** Running `jobs` from tally `t`: skip unselected jobs, execute the others
      one by one, count each verdict, stop at a failure under `--bail` and
      at a crash. */
  function Drive(src: Source, opts: Options, port: EvaluateParams -> Answer, jobs: seq<Job>, t: Tally): (r: Run)
    ensures r.tally.total == t.total
    ensures t.run <= r.tally.run && t.succeeded <= r.tally.succeeded && t.failed <= r.tally.failed
    ensures r.tally.run - t.run == (r.tally.succeeded - t.succeeded) + (r.tally.failed - t.failed)
    ensures r.tally.run <= t.run + CountSelected(jobs, opts.only)
    ensures r.state == Finished ==> r.tally.run == t.run + CountSelected(jobs, opts.only)
    ensures r.state == BailedOut ==> opts.bail && r.tally.failed == t.failed + 1
    ensures opts.bail && r.state == Finished ==> r.tally.failed == t.failed
    decreases |jobs|
  {
    if |jobs| == 0 then Run(Finished, t)
    else if !Selected(opts.only, jobs[0].test.name) then Drive(src, opts, port, jobs[1..], t)
    else
      match Execute(Params(src, opts, jobs[0]), port)
      case Crashed => Run(Aborted, t)
      case Passed => Drive(src, opts, port, jobs[1..], t.(run := t.run + 1, succeeded := t.succeeded + 1))
      case Failed =>
        var t' := t.(run := t.run + 1, failed := t.failed + 1);
        if opts.bail then Run(BailedOut, t') else Drive(src, opts, port, jobs[1..], t')
  }

  /** Running two job lists one after the other: the second list is only
      reached when the first one finishes. */
  lemma {:induction false} DriveAppend(src: Source, opts: Options, port: EvaluateParams -> Answer,
                                       a: seq<Job>, b: seq<Job>, t: Tally)
    ensures var ra := Drive(src, opts, port, a, t);
      Drive(src, opts, port, a + b, t) ==
        if ra.state == Finished then Drive(src, opts, port, b, ra.tally) else ra
    decreases |a|
  {
    if |a| == 0 {
      assert a + b == b;
    } else {
      assert (a + b)[0] == a[0] && (a + b)[1..] == a[1..] + b;
      if !Selected(opts.only, a[0].test.name) {
        DriveSkips(src, opts, port, a + b, t);
        DriveSkips(src, opts, port, a, t);
        DriveAppend(src, opts, port, a[1..], b, t);
      } else {
        var w := Execute(Params(src, opts, a[0]), port);
        if w == Passed || (w == Failed && !opts.bail) {
          var t' := DriveCounts(src, opts, port, a + b, t);
          var t'' := DriveCounts(src, opts, port, a, t);
          DriveAppend(src, opts, port, a[1..], b, t');
        }
      }
    }
  }

  /** Under `--bail`, once every selected job before it has passed, the first
      failing job ends the run with one more failure, and no later job is run. */
  lemma BailStopsAtFirstFailure(src: Source, opts: Options, port: EvaluateParams -> Answer,
                                before: seq<Job>, failing: Job, after: seq<Job>, t: Tally)
    requires opts.bail
    requires Drive(src, opts, port, before, t).state == Finished
    requires Selected(opts.only, failing.test.name)
    requires Execute(Params(src, opts, failing), port) == Failed
    ensures var r := Drive(src, opts, port, before + [failing] + after, t);
      r.state == BailedOut && r.tally.failed == t.failed + 1 &&
      r.tally.succeeded == Drive(src, opts, port, before, t).tally.succeeded &&
      r == Drive(src, opts, port, before + [failing], t)
  {
    DriveAppend(src, opts, port, before, [failing] + after, t);
    DriveAppend(src, opts, port, before, [failing], t);
    assert ([failing] + after)[0] == failing;
    assert [failing][1..] == [];
    assert before + [failing] + after == before + ([failing] + after);
  }

  // ---------------------------------------------------------------------------
  // What the tally counts

  /** The number of selected jobs whose test gets verdict `v`. */
  function CountVerdict(src: Source, opts: Options, port: EvaluateParams -> Answer, jobs: seq<Job>, v: Verdict): (n: nat)
    ensures n <= CountSelected(jobs, opts.only)
    decreases |jobs|
  {
    if |jobs| == 0 then 0
    else
      (if Selected(opts.only, jobs[0].test.name) && Execute(Params(src, opts, jobs[0]), port) == v then 1 else 0) +
      CountVerdict(src, opts, port, jobs[1..], v)
  }

  /** Every selected job gets exactly one of the three verdicts. */
  lemma {:induction false} VerdictsPartition(src: Source, opts: Options, port: EvaluateParams -> Answer, jobs: seq<Job>)
    ensures CountVerdict(src, opts, port, jobs, Passed) + CountVerdict(src, opts, port, jobs, Failed) +
            CountVerdict(src, opts, port, jobs, Crashed) == CountSelected(jobs, opts.only)
    decreases |jobs|
  {
    if |jobs| > 0 {
      VerdictsPartition(src, opts, port, jobs[1..]);
    }
  }

  /** How many tests of verdict `v` the tally records; a crash is never counted. */
  function Counted(t: Tally, v: Verdict): (n: nat) {
    match v
    case Passed => t.succeeded
    case Failed => t.failed
    case Crashed => 0
  }

  /** A finished run records one more test of verdict `v` per selected job
      that got `v`. */
  lemma {:induction false} FinishedCounts(src: Source, opts: Options, port: EvaluateParams -> Answer,
                                          jobs: seq<Job>, t: Tally, v: Verdict)
    ensures var r := Drive(src, opts, port, jobs, t);
      r.state == Finished ==> Counted(r.tally, v) == Counted(t, v) + CountVerdict(src, opts, port, jobs, v)
    decreases |jobs|
  {
    if |jobs| > 0 {
      var rest := jobs[1..];
      if !Selected(opts.only, jobs[0].test.name) {
        DriveSkips(src, opts, port, jobs, t);
        FinishedCounts(src, opts, port, rest, t, v);
      } else {
        var w := Execute(Params(src, opts, jobs[0]), port);
        if w == Crashed || (w == Failed && opts.bail) {
          DriveStops(src, opts, port, jobs, t);
        } else {
          var t' := DriveCounts(src, opts, port, jobs, t);
          assert Counted(t', v) == Counted(t, v) + (if w == v then 1 else 0);
          FinishedCounts(src, opts, port, rest, t', v);
        }
      }
    }
  }

  /** An unselected job leaves the run as it is. */
  lemma DriveSkips(src: Source, opts: Options, port: EvaluateParams -> Answer, jobs: seq<Job>, t: Tally)
    requires |jobs| > 0 && !Selected(opts.only, jobs[0].test.name)
    ensures Drive(src, opts, port, jobs, t) == Drive(src, opts, port, jobs[1..], t)
    ensures forall v :: CountVerdict(src, opts, port, jobs, v) == CountVerdict(src, opts, port, jobs[1..], v)
  {
  }

  /** A selected job that crashes, or fails under `--bail`, ends the run. */
  lemma DriveStops(src: Source, opts: Options, port: EvaluateParams -> Answer, jobs: seq<Job>, t: Tally)
    requires |jobs| > 0 && Selected(opts.only, jobs[0].test.name)
    requires var w := Execute(Params(src, opts, jobs[0]), port); w == Crashed || (w == Failed && opts.bail)
    ensures Drive(src, opts, port, jobs, t) ==
      if Execute(Params(src, opts, jobs[0]), port) == Crashed then Run(Aborted, t)
      else Run(BailedOut, t.(run := t.run + 1, failed := t.failed + 1))
  {
  }

  /** A selected job that passes, or fails without `--bail`, is counted and
      the run goes on from the next job with the new tally `t'`. */
  lemma DriveCounts(src: Source, opts: Options, port: EvaluateParams -> Answer, jobs: seq<Job>, t: Tally)
    returns (t': Tally)
    requires |jobs| > 0 && Selected(opts.only, jobs[0].test.name)
    requires var w := Execute(Params(src, opts, jobs[0]), port); w == Passed || (w == Failed && !opts.bail)
    ensures var w := Execute(Params(src, opts, jobs[0]), port);
      t' == if w == Passed then t.(run := t.run + 1, succeeded := t.succeeded + 1)
            else t.(run := t.run + 1, failed := t.failed + 1)
    ensures Drive(src, opts, port, jobs, t) == Drive(src, opts, port, jobs[1..], t')
    ensures forall v :: (CountVerdict(src, opts, port, jobs, v) ==
      (if Execute(Params(src, opts, jobs[0]), port) == v then 1 else 0) + CountVerdict(src, opts, port, jobs[1..], v))
  {
    var w := Execute(Params(src, opts, jobs[0]), port);
    t' := if w == Passed then t.(run := t.run + 1, succeeded := t.succeeded + 1)
          else t.(run := t.run + 1, failed := t.failed + 1);
  }

  /** A finished run adds one success per Passed verdict and one failure per
      Failed verdict, and met no crash. */
  lemma {:induction false} FinishedCountsVerdicts(src: Source, opts: Options, port: EvaluateParams -> Answer,
                                                  jobs: seq<Job>, t: Tally)
    ensures var r := Drive(src, opts, port, jobs, t);
      r.state == Finished ==>
        r.tally.succeeded == t.succeeded + CountVerdict(src, opts, port, jobs, Passed) &&
        r.tally.failed == t.failed + CountVerdict(src, opts, port, jobs, Failed) &&
        CountVerdict(src, opts, port, jobs, Crashed) == 0
  {
    FinishedCounts(src, opts, port, jobs, t, Passed);
    FinishedCounts(src, opts, port, jobs, t, Failed);
    FinishedCounts(src, opts, port, jobs, t, Crashed);
  }

  /** When every selected job passes, the run finishes with no new failure. */
  lemma {:induction false} AllPassedFinishes(src: Source, opts: Options, port: EvaluateParams -> Answer,
                                             jobs: seq<Job>, t: Tally)
    requires CountVerdict(src, opts, port, jobs, Passed) == CountSelected(jobs, opts.only)
    ensures Drive(src, opts, port, jobs, t).state == Finished
    ensures Drive(src, opts, port, jobs, t).tally.failed == t.failed
    decreases |jobs|
  {
    if |jobs| > 0 {
      if !Selected(opts.only, jobs[0].test.name) {
        DriveSkips(src, opts, port, jobs, t);
        AllPassedFinishes(src, opts, port, jobs[1..], t);
      } else {
        assert Execute(Params(src, opts, jobs[0]), port) == Passed;
        var t' := DriveCounts(src, opts, port, jobs, t);
        AllPassedFinishes(src, opts, port, jobs[1..], t');
      }
    }
  }

  /** A selected job that fails makes the exit status non-zero, wherever it
      stands: the run either counts the failure or stops earlier at a crash. */
  lemma {:induction false} FailureNeverExitsZero(src: Source, opts: Options, port: EvaluateParams -> Answer,
                                                 jobs: seq<Job>, t: Tally, i: int)
    requires 0 <= i < |jobs|
    requires Selected(opts.only, jobs[i].test.name)
    requires Execute(Params(src, opts, jobs[i]), port) == Failed
    ensures ExitStatus(Drive(src, opts, port, jobs, t)) != 0
    decreases i
  {
    if i > 0 {
      if !Selected(opts.only, jobs[0].test.name) {
        DriveSkips(src, opts, port, jobs, t);
        FailureNeverExitsZero(src, opts, port, jobs[1..], t, i - 1);
      } else {
        var w := Execute(Params(src, opts, jobs[0]), port);
        if w == Passed || (w == Failed && !opts.bail) {
          var t' := DriveCounts(src, opts, port, jobs, t);
          FailureNeverExitsZero(src, opts, port, jobs[1..], t', i - 1);
        }
      }
    }
  }

  // ---------------------------------------------------------------------------
  // The driver loop and the exit status

  /** The up-front count of planned tests, before any filtering. */
  method CountTests(eps: seq<EntryPoint>) returns (total: nat)
    ensures total == TotalTests(eps)
  {
    total := 0;
    var i := 0;
    while i < |eps|
      invariant 0 <= i <= |eps|
      invariant total == TotalTests(eps[..i])
    {
      var j := 0;
      while j < |eps[i].tests|
        invariant 0 <= j <= |eps[i].tests|
        invariant total == TotalTests(eps[..i]) + j
      {
        total := total + 1;
        j := j + 1;
      }
      TotalTestsAppend(eps[..i], [eps[i]]);
      assert eps[..i + 1] == eps[..i] + [eps[i]];
      assert TotalTests([eps[i]]) == |eps[i].tests| by { assert [eps[i]][1..] == []; }
      i := i + 1;
    }
    assert eps[..|eps|] == eps;
  }

  /** One test of the inner loop: execute it when selected and count its
      verdict; `stop` holds the run's end when it ends here. */
  method RunJob(src: Source, opts: Options, port: EvaluateParams -> Answer, query: string, test: Test,
                ghost jobs: seq<Job>, tally: Tally)
    returns (next: Tally, stop: Option<Run>)
    requires |jobs| > 0 && jobs[0] == Job(query, test)
    ensures stop.Some? ==> Drive(src, opts, port, jobs, tally) == stop.value
    ensures stop.None? ==> Drive(src, opts, port, jobs, tally) == Drive(src, opts, port, jobs[1..], next)
  {
    next := tally;
    stop := None;
    if opts.only == "" || test.name == opts.only {
      var verdict := Execute(ExecuteParams(test.name, src.rego, src.data, query, test.input, test.expected, opts.verbose), port);
      assert verdict == Execute(Params(src, opts, jobs[0]), port);
      if verdict == Crashed {
        DriveStops(src, opts, port, jobs, tally);
        stop := Some(Run(Aborted, tally));
        return;
      }
      next := tally.(run := tally.run + 1);
      if verdict == Passed {
        next := next.(succeeded := tally.succeeded + 1);
      } else {
        next := next.(failed := tally.failed + 1);
        if opts.bail {
          DriveStops(src, opts, port, jobs, tally);
          stop := Some(Run(BailedOut, next));
          return;
        }
      }
      ghost var counted := DriveCounts(src, opts, port, jobs, tally);
    } else {
      DriveSkips(src, opts, port, jobs, tally);
    }
  }

  /** The tests of one entry point, in order, from tally `t`. */
  method RunEntryPoint(src: Source, opts: Options, port: EvaluateParams -> Answer, ep: EntryPoint, t: Tally)
    returns (r: Run)
    ensures r == Drive(src, opts, port, EntryJobs(src.packageName, ep), t)
  {
    var query := src.packageName + "." + ep.variable;
    ghost var entryJobs := EntryJobs(src.packageName, ep);
    assert entryJobs[0..] == entryJobs;
    var tally := t;
    var j := 0;
    while j < |ep.tests|
      invariant 0 <= j <= |ep.tests|
      invariant Drive(src, opts, port, entryJobs[j..], tally) == Drive(src, opts, port, entryJobs, t)
    {
      ghost var rest := entryJobs[j..];
      assert rest[0] == Job(query, ep.tests[j]);
      assert rest[1..] == entryJobs[j + 1..];
      var next, stop := RunJob(src, opts, port, query, ep.tests[j], rest, tally);
      if stop.Some? {
        return stop.value;
      }
      tally := next;
      j := j + 1;
    }
    assert entryJobs[j..] == [];
    r := Run(Finished, tally);
  }

  /** The driver: count the planned tests, then run the selected ones entry
      point by entry point, test by test. */
  method RunSuite(suite: TestSuite, opts: Options, port: EvaluateParams -> Answer) returns (r: Run)
    ensures r == Drive(suite.source, opts, port, Jobs(suite.source.packageName, suite.entryPoints),
                       Tally(TotalTests(suite.entryPoints), 0, 0, 0))
    ensures r.tally.total == TotalTests(suite.entryPoints)
    ensures r.tally.run == r.tally.succeeded + r.tally.failed && r.tally.run <= r.tally.total
    ensures r.state == BailedOut ==> opts.bail && r.tally.failed == 1
    ensures opts.only == "" && r.state == Finished ==> r.tally.run == r.tally.total
  {
    var src := suite.source;
    var eps := suite.entryPoints;
    var total := CountTests(eps);
    ghost var all := Jobs(src.packageName, eps);
    ghost var start := Tally(total, 0, 0, 0);
    AllSelected(all);
    var tally := Tally(total, 0, 0, 0);
    var i := 0;
    assert eps[0..] == eps;
    while i < |eps|
      invariant 0 <= i <= |eps|
      invariant Drive(src, opts, port, Jobs(src.packageName, eps[i..]), tally) == Drive(src, opts, port, all, start)
    {
      assert eps[i..][0] == eps[i] && eps[i..][1..] == eps[i + 1..];
      var epRun := RunEntryPoint(src, opts, port, eps[i], tally);
      DriveAppend(src, opts, port, EntryJobs(src.packageName, eps[i]), Jobs(src.packageName, eps[i + 1..]), tally);
      if epRun.state != Finished {
        return epRun;
      }
      tally := epRun.tally;
      i := i + 1;
    }
    r := Run(Finished, tally);
  }

  /** The process exit status: 1 after a failure (bailed out or not), 2 for
      a Go panic, 0 otherwise. */
  function ExitStatus(r: Run): (code: int)
    ensures code == 0 <==> r.state == Finished && r.tally.failed == 0
    ensures r.state == BailedOut ==> code == 1
    ensures r.state == Finished && r.tally.failed > 0 ==> code == 1
    ensures r.state == Aborted ==> code == 2
  {
    match r.state
    case Finished => if r.tally.failed > 0 then 1 else 0
    case BailedOut => 1
    case Aborted => 2
  }

  /** A run reports success exactly when every selected test passed: it
      never does when a test failed, crashed, or the run stopped early. */
  lemma {:induction false} SuccessMeansAllPassed(suite: TestSuite, opts: Options, port: EvaluateParams -> Answer)
    ensures var r := Drive(suite.source, opts, port, Jobs(suite.source.packageName, suite.entryPoints),
                           Tally(TotalTests(suite.entryPoints), 0, 0, 0));
      ExitStatus(r) == 0 <==> r.state == Finished && r.tally.run == r.tally.succeeded
    ensures var jobs := Jobs(suite.source.packageName, suite.entryPoints);
      var r := Drive(suite.source, opts, port, jobs, Tally(TotalTests(suite.entryPoints), 0, 0, 0));
      ExitStatus(r) == 0 <==> CountVerdict(suite.source, opts, port, jobs, Passed) == CountSelected(jobs, opts.only)
  {
    var jobs := Jobs(suite.source.packageName, suite.entryPoints);
    var t := Tally(TotalTests(suite.entryPoints), 0, 0, 0);
    FinishedCountsVerdicts(suite.source, opts, port, jobs, t);
    VerdictsPartition(suite.source, opts, port, jobs);
    if CountVerdict(suite.source, opts, port, jobs, Passed) == CountSelected(jobs, opts.only) {
      AllPassedFinishes(suite.source, opts, port, jobs, t);
    }
  }

  /** With the subprocess gateway as the port, output from which no object
      can be recovered does not fail the test: it takes the whole run down,
      before the test is counted, and the process exits with Go's panic status. */
  lemma {:induction false} UnrecoverableOutputAbortsRun(src: Source, opts: Options, c: BinaryOpaAdapter.Collaborators,
                                                        job: Job, later: seq<Job>, t: Tally)
    requires Selected(opts.only, job.test.name)
    requires var q := Request(Params(src, opts, job));
      c.marshal(q.input).Some? &&
      var out := c.run(BinaryOpaAdapter.Args(q), c.marshal(q.input).value);
      out.Some? && BinaryOpaAdapter.ExtractLastObject(out.value).Failure?
    ensures Drive(src, opts, p => BinaryOpaAdapter.Evaluate(c, p), [job] + later, t) == Run(Aborted, t)
    ensures ExitStatus(Drive(src, opts, p => BinaryOpaAdapter.Evaluate(c, p), [job] + later, t)) == 2
  {
    assert ([job] + later)[0] == job;
  }

  // ---------------------------------------------------------------------------
  // The `filter` helper

  /** The elements of `s` that satisfy `condition`, in their order. */
  function Keep(s: seq<string>, condition: string -> bool): (r: seq<string>)
    ensures |r| <= |s|
    ensures forall k :: 0 <= k < |r| ==> condition(r[k])
  {
    if |s| == 0 then []
    else
      var init := s[..|s| - 1];
      var last := s[|s| - 1];
      assert s == init + [last];
      Keep(init, condition) + if condition(last) then [last] else []
  }

  /** Filtering keeps the order: filtering a concatenation concatenates the filterings. */
  lemma {:induction false} KeepAppend(a: seq<string>, b: seq<string>, condition: string -> bool)
    ensures Keep(a + b, condition) == Keep(a, condition) + Keep(b, condition)
    decreases |b|
  {
    if |b| > 0 {
      var init := b[..|b| - 1];
      assert (a + b)[..|a + b| - 1] == a + init && (a + b)[|a + b| - 1] == b[|b| - 1];
      KeepAppend(a, init, condition);
    } else {
      assert a + b == a;
    }
  }

  /** Filtering keeps every occurrence of an element that satisfies the
      condition and drops every occurrence of one that does not. */
  lemma {:induction false} KeepCounts(s: seq<string>, condition: string -> bool, x: string)
    ensures multiset(Keep(s, condition))[x] == if condition(x) then multiset(s)[x] else 0
    decreases |s|
  {
    if |s| > 0 {
      var init := s[..|s| - 1];
      var last := s[|s| - 1];
      assert s == init + [last];
      KeepCounts(init, condition, x);
    }
  }

  /** The Go `filter` loop: append each element that satisfies the condition. */
  method Filter(slice: seq<string>, condition: string -> bool) returns (result: seq<string>)
    ensures result == Keep(slice, condition)
  {
    result := [];
    var i := 0;
    while i < |slice|
      invariant 0 <= i <= |slice|
      invariant result == Keep(slice[..i], condition)
    {
      assert slice[..i + 1][..i] == slice[..i];
      if condition(slice[i]) {
        result := result + [slice[i]];
      }
      i := i + 1;
    }
    assert slice[..|slice|] == slice;
  }
}

=== FILE: run_test_use_case.dfy ===
/** Running one test: ask the evaluator port once, then compare the value it
    returns with the expected value. */
module RunTestUseCase {
  import opened Wrappers
  import opened JsonValues
  import opened OpaPort

  /** What the driver hands over for one test. `input` is the raw JSON text
      of the test's input; `expected` is the decoded expected value. */
  datatype ExecuteParams = ExecuteParams(
    name: string,
    regoPath: string,
    dataPath: string,
    entryPoint: string,
    input: string,
    expected: Json,
    verbose: bool)

  /** How a test ends: it passes, it fails, or it takes the process down
      (the port panicked, or Go's `!=` panicked on two slices or two maps). */
  datatype Verdict = Passed | Failed | Crashed

  /** The one request the use case sends to the port. */
  function Request(p: ExecuteParams): (q: EvaluateParams)
    ensures q.regoPath == p.regoPath && q.dataPath == p.dataPath
    ensures q.entryPoint == p.entryPoint && q.input == p.input && q.verbose == p.verbose
  {
    EvaluateParams(p.regoPath, p.dataPath, p.entryPoint, p.input, p.verbose)
  }

  /** The verdict of one test, given the port. The output is only printed. */
  function Execute(p: ExecuteParams, port: EvaluateParams -> Answer): (v: Verdict)
    ensures v == Passed <==>
      port(Request(p)).Returned? && port(Request(p)).err.None? &&
      port(Request(p)).result.value == p.expected && !IsComposite(p.expected)
    ensures v == Failed <==>
      port(Request(p)).Returned? &&
      (port(Request(p)).err.Some? ||
       KindOf(port(Request(p)).result.value) != KindOf(p.expected) ||
       (port(Request(p)).result.value != p.expected && !IsComposite(p.expected)))
    ensures port(Request(p)).Panicked? ==> v == Crashed
  {
    match port(Request(p))
    case Panicked(_) => Crashed
    case Returned(result, err) =>
      if err.Some? then Failed
      else
        match InterfaceEquals(result.value, p.expected)
        case None => Crashed
        case Some(equal) => if equal then Passed else Failed
  }

  /** The use case consults the port at its one request and nowhere else. */
  lemma ExecuteAsksOnce(p: ExecuteParams, port1: EvaluateParams -> Answer, port2: EvaluateParams -> Answer)
    requires port1(Request(p)) == port2(Request(p))
    ensures Execute(p, port1) == Execute(p, port2)
  {
  }

  /** An error from the port fails the test, whatever value comes with it. */
  lemma ErrorFails(p: ExecuteParams, port: EvaluateParams -> Answer)
    requires port(Request(p)).Returned? && port(Request(p)).err.Some?
    ensures Execute(p, port) == Failed
  {
  }

  /** The evaluator's output never changes the verdict. */
  lemma OutputIgnored(p: ExecuteParams, port1: EvaluateParams -> Answer, port2: EvaluateParams -> Answer)
    requires port1(Request(p)).Returned? && port2(Request(p)).Returned?
    requires port1(Request(p)).err == port2(Request(p)).err
    requires port1(Request(p)).result.value == port2(Request(p)).result.value
    ensures Execute(p, port1) == Execute(p, port2)
  {
  }

  /** With a scalar expected value the test never crashes on the comparison:
      it passes exactly when the port returns no error and the same value. */
  lemma ScalarVerdict(p: ExecuteParams, port: EvaluateParams -> Answer)
    requires !IsComposite(p.expected) && port(Request(p)).Returned?
    ensures Execute(p, port) != Crashed
    ensures Execute(p, port) == Passed <==>
      port(Request(p)).err.None? && port(Request(p)).result.value == p.expected
  {
  }

  /** Equality is on dynamic type and value: the number 1 does not equal the string "1". */
  lemma NumberIsNotString(p: ExecuteParams, port: EvaluateParams -> Answer)
    requires p.expected == String("1")
    requires port(Request(p)) == Returned(EvaluateResult(Number(1.0), ""), None)
    ensures Execute(p, port) == Failed
  {
  }

  /** A slice or map expected value can never pass: comparing it with a value of
      the same kind panics, and with a value of another kind is unequal. */
  lemma CompositeNeverPasses(p: ExecuteParams, port: EvaluateParams -> Answer)
    requires IsComposite(p.expected)
    ensures Execute(p, port) != Passed
  {
  }
}

=== FILE: wrappers.dfy ===
/** Failure-carrying values shared by the modules of this model. */
module Wrappers {

  /** A value that may be absent (a Go `nil`, a missing entry, a failed decode). */
  datatype Option<+T> = None | Some(value: T)

  /** Either a computed value or the error that prevented it. */
  datatype Result<+R, +E> = Success(value: R) | Failure(error: E)
}
